=== FILE: README.md ===
# Turn-taking controller of the voice bridge, in Dafny

The program is a voice bridge. It listens on the microphone and turns speech
into text with Vosk. It sends each utterance to a Qwen 2.5 text-generation
backend over HTTP. It publishes the pair of utterance and reply to a Unity
client over a WebSocket, then speaks the reply with pyttsx3. All of this is in
`voice.py`. What remains once the engines are abstracted away is a small
sequential state machine, and that is what this project models:

- `get_model_reply` (module `Reply`). This is a total function from what the
  HTTP call produced to reply text. The produced outcome is a status and a
  body, or an exception.
- The `speak` flag protocol (module `Speech`). The shared state is the two
  globals `is_speaking` and `speech_thread`. `speak` raises the flag before it
  starts the thread, and the thread lowers the flag only after playback
  returns normally. The thread is not modelled as concurrency. Its end is a
  separate `SpeechEnded` event that can happen between any two passes of the
  loop.
- One pass of the `while True` loop in `recognize_and_communicate` (module
  `Loop`). This is a pure `Step` from the state and one event to the new state
  and the ordered list of actions taken. An event is one of three things. It
  can be a frame that was read, together with what the recognizer, the backend
  and the socket did with it. It can be a failed read. It can be the end of a
  speech thread.
- Runs of any length (module `Runs`). A run is a left fold of `Step` over a
  sequence of events. The trace properties are stated over the concatenated
  actions.

`Text` models Python's `str.strip()`, using the Unicode whitespace set that
`str.isspace()` uses. `Decimal` renders an `int` as an f-string does, and it
has a parser that reads the number back. `Scenarios` holds two end-to-end
conversations.

Two consequences of the code are kept as written:

- `run_speech` has no `try`/`finally` around `engine.runAndWait()`
  (voice.py:56-59). An engine failure therefore leaves `is_speaking` raised,
  and no later thread exists to lower it. `Runs.DeafAfterEngineFailure` and
  `Runs.EngineFailureDeafensLoop` prove what follows: after such a failure the
  loop never feeds the recognizer again, and every pass only sleeps.
- Only the failure texts of `get_model_reply` are guaranteed non-empty. A 200
  answer whose `"response"` is `""` gives an empty reply (voice.py:37,
  `Reply.OkReplyMayBeEmpty`), and that reply is still sent and spoken like any
  other, since `Loop.TurnOrder` puts whatever reply was returned into the
  `Send` and the `Speak` of the turn.

## Model

| member | source | states |
|---|---|---|
| `Text.Strip` | voice.py:102 | The stripped utterance has no whitespace at either end. It is empty exactly when the recognizer's text was all whitespace, using Python's whitespace set. |
| `Text.StripIsSlice` | voice.py:102 | `strip` only cuts whitespace: the result is one slice of the text, and everything outside it is whitespace. |
| `Text.StripIdempotent` | voice.py:102 | Stripping an already stripped utterance changes nothing. |
| `Decimal.ParseIntToDecimal` | voice.py:39 | The status code formatted into the fallback text reads back as the same integer. |
| `Decimal.IntToDecimalInjective` | voice.py:39 | Distinct status codes format to distinct texts. |
| `Decimal.IntToDecimalOfParse` | voice.py:39 | The reverse round trip: every text the parser accepts is the formatting of the integer it reads. The parser accepts only what `str(int)` writes: no bare `-`, no `-0`, no leading zeros. |
| `Reply.BodyReply` | voice.py:35-41 | For a 200 answer: the reply is the `"response"` field if present, and the apology text if absent. If decoding fails, or the JSON is not an object so `.get` raises, the reply is the error text carrying that exception's message. |
| `Reply.ModelReply` | voice.py:33-41 | `get_model_reply` is total and never raises. For a non-200 status, the status reads back from the text, and with `Reply.StatusInPinsText` the text is exactly `请求失败，状态码: ` followed by the code. For a raised request, the text carries the exception message. Both failure texts are non-empty. A 200 answer is read from its body. |
| `Reply.StatusInPinsText` | voice.py:39 | A text from which status `c` reads back is exactly the status fallback for `c`, character for character. |
| `Reply.BodyIgnoredUnlessOk` | voice.py:35-39 | The body is consulted only for status 200. Any other status gives the same text whatever the body. |
| `Reply.FailureTextsDistinct` | voice.py:37-41 | Two status fallbacks are equal only for equal codes. A status fallback never reads as an exception text, whether from a raised request or from a 200 body that could not be decoded or was not an object, and is never the apology. |
| `Reply.OkReplyMayBeEmpty` | voice.py:35-37 | A 200 answer with an empty `"response"` gives an empty reply. |
| `Speech.StartSpeaking` | voice.py:44-63 | `speak` has already raised the flag when it returns. The one running thread is the one playing the given text. |
| `Speech.ThreadEnds` | voice.py:48-59 | A thread's end keeps the protocol invariant. Only a normal end of a running thread lowers the flag. An engine failure leaves the flag as it was. |
| `Loop.Utterance` | voice.py:100-104 | The utterance taken from a final result, with a missing `text` read as `""`, is empty exactly when that text is all whitespace. Otherwise it is stripped and has no whitespace at either end. |
| `Loop.Step` | voice.py:89-124 | Every state has a successor for every event, and the step keeps the flag invariant. Every pass of the loop that finishes ends in a sleep, so no event is a terminal state of the model. |
| `Loop.NoSelfListening` | voice.py:92-97 | While the flag is raised, a frame that was read is dropped. Nothing is fed, asked, sent or spoken, the state is unchanged, and the only action is the 0.1 s sleep. |
| `Loop.EmptyUtteranceNoOp` | voice.py:99-104 | A partial result, or a final one whose text is missing or all whitespace, gives exactly: feed the frame, then sleep 0.1 s, with the state unchanged. Any other final result does more. |
| `Loop.TurnOrder` | voice.py:104-121 | For a non-empty utterance `u` the actions are, in order: feed; request with model `qwen2.5`, prompt `u`, `stream` false; send `{u, r}`; speak `r`; sleep 0.1 s. Here `r` is exactly `get_model_reply`'s text. The flag is raised after the step, and the running thread plays `r`. |
| `Loop.SendFailureSwallowed` | voice.py:66-70 | A send that raises gives the same state and the same actions, `Speak` included, as one that returns. The only difference is that the `Send` is marked as not sent. |
| `Loop.ErrorBackoff` | voice.py:122-124 | A failed read, or a recognizer failure on a frame that was fed, leaves the state unchanged and starts no turn. It ends with the 1 s sleep instead of the 0.1 s one. |
| `Loop.OneSleepPerPass` | voice.py:89-124 | Each pass sleeps exactly once, as its last action. It sleeps 1 s exactly when reading or recognition failed, and 0.1 s otherwise. |
| `Loop.FlagLoweredOnlyByCompletion` | voice.py:56-59 | If a step lowers the flag, the event was the normal end of a running speech thread. |
| `Loop.EngineFailureKeepsFlag` | voice.py:56-59 | An engine failure ends the thread and leaves the flag raised. |
| `Loop.SingleSynthesis` | voice.py:95-119 | A step that speaks starts from a state with the flag lowered and no speech thread running. |
| `Runs.Run` | voice.py:89-124 | Any interleaving of loop passes and thread ends, starting from a valid state, passes only through valid states. |
| `Runs.StepFlagFollowsTrace` | voice.py:44-63 | After a step, the flag is what the step's actions make of the flag before it: a `Speak` raises it, a normal end of playback lowers it, and otherwise it is unchanged. |
| `Runs.RunFlagFollowsTrace` | voice.py:44-63 | Over a whole run, the flag is the flag at the start, updated the same way by the run's whole trace. |
| `Runs.StepActsOnlyUnmuted` | voice.py:95-119 | Within a step, the recognizer is fed and a reply is spoken only when no earlier `Speak` is still waiting for its playback to end normally. |
| `Runs.RunActsOnlyUnmuted` | voice.py:95-119 | No self-listening over any run: every feed and every speak happens when, at the `is_speaking` check, no earlier playback is still pending. |
| `Runs.SpeakWindowsRespected` | voice.py:95-119 | In any run, between a `Speak` and any later feed or `Speak`, the first playback ended normally. So there is at most one speech per playback window. |
| `Runs.StepTurnsOrdered` | voice.py:104-119 | Every step's actions follow the turn order. |
| `Runs.RunTurnsOrdered` | voice.py:104-119 | In any run, each request names a non-empty stripped utterance and is followed by the message pairing it with a reply. Each message is followed by speaking exactly that reply. Each `Speak` comes right after its request and message. |
| `Runs.DeafAfterEngineFailure` | voice.py:56-59 | With the flag raised and no thread running, every later run only sleeps and never changes the state. |
| `Runs.EngineFailureDeafensLoop` | voice.py:56-97 | After a playback fails, no frame is ever fed to the recognizer again, whatever events follow. |
| `Scenarios.GreetingIsAnswered` | voice.py:99-121 | For the utterance 你好 with the backend answering 你好！有什么可以帮您: the reply is requested, sent, spoken once, and the flag goes idle → speaking → idle. |
| `Scenarios.ServerErrorIsSpoken` | voice.py:35-39 | An HTTP 500 answer still completes the turn. The text sent and spoken is `请求失败，状态码: 500`. |

## Left out

- Loop.Step: an event is a loop pass that finished. `requests.post` has no `timeout=` (voice.py:34), and `stream.read` (voice.py:92) and `await websocket.send` (voice.py:68) can block for ever; such a pass never becomes an event, so the totality of `Step` says nothing about it.
- Loop.Step: `stream.read` (voice.py:92) runs before the `is_speaking` check (voice.py:95). The speech thread can lower the flag while the read blocks, so a fed frame of up to 4000 samples (250 ms at 16 kHz) may hold audio captured while the reply was still playing. No self-listening (`Loop.NoSelfListening`, `Runs.RunActsOnlyUnmuted`, `Runs.SpeakWindowsRespected`) is about the flag at the check, not about when the audio was captured.
- `websocket.send` returning only means the message was handed to the transport; no acknowledgement is awaited, and the model's `sent` flag promises nothing more.
- The microphone and stream setup (PyAudio, voice.py:77-79) is left out. So are the 4000-sample frames: frames are opaque sequences.
- Vosk model loading and the recognizer's internals (voice.py:80-81, 99-101) are left out. What the recognizer answers is part of the event. For a frame read while the flag is raised, that answer is carried but never used.
- The pyttsx3 engine setup, rate, volume and voice selection (voice.py:49-55) are left out. They are foreign calls, and only "returned normally" or "raised" matters.
- The HTTP transport, URL and headers (voice.py:23-27, 34) are left out. Only the outcome of the POST is an input.
- Opening the WebSocket (voice.py:74, 86) and the bytes `json.dumps` produces (voice.py:68) are left out. The message is the pair it serialises, and the socket's behaviour is an input.
- Real threading and asyncio scheduling are left out. A thread's end is an event between two passes of the loop. A sleep is an action tagged with its duration, not elapsed time.
- `threading.Thread.start` raising after the flag was set (voice.py:62-63) is left out. That is resource exhaustion in the runtime.
- Console `print` is left out, and so is a `print` that raises.
- The startup model-path check and process exit (voice.py:12-15) are left out, as are the entry point and `KeyboardInterrupt` handling (voice.py:127-131).
- Reply.Body: a `"response"` value that is not a string is not modelled. The decoded object is a map from strings to strings.
- Reply.Body: exception messages (`str(e)`) of transport and decoding errors are inputs and are not derived. The one exception is the `AttributeError` raised by `.get` on a non-object.

=== FILE: actions.dfy ===
/**
 What one pass of the controller, or the end of a speech thread, does to the
 outside world, in order. Console logging is not an action.
 */
module Actions {
  import Reply

  /** One block read from the microphone: 4000 signed 16-bit mono samples at
      16 kHz. The controller never looks inside a frame. */
  type Frame = seq<int>

  /** The message published to the display client, keys in this order. */
  datatype DisplayMessage = DisplayMessage(userInput: string, replyText: string)

  /** How a speech thread's `engine.runAndWait()` ended. */
  datatype SpeechOutcome = Completed | EngineRaised(error: string)

  const IdleDelay: real := 0.1
  const BackoffDelay: real := 1.0

  datatype Action =
    | FeedRecognizer(frame: Frame)                      // `rec.AcceptWaveform(data)`
    | RequestReply(request: Reply.GenerateRequest)      // `get_model_reply(user_input)`
    | Send(message: DisplayMessage, sent: bool)         // `send_message`; false when `websocket.send` raised
    | Speak(text: string)                               // `speak(reply_text)` starts a thread
    | SpeechEnd(outcome: SpeechOutcome)                 // the speech thread finishes
    | Sleep(seconds: real)                              // `await asyncio.sleep(...)`
}

=== FILE: decimal.dfy ===
/**
 Decimal rendering of an integer, as an f-string renders an `int`, and the
 parser that reads it back. The parser is the rendering's partner: it
 accepts exactly the texts the rendering produces, and each direction undoes
 the other, so a status-code fallback text and its status code determine
 each other.
 */
module Decimal {

  predicate IsDigit(c: char) {
    '0' <= c <= '9'
  }

  predicate AllDigits(s: string) {
    forall k :: 0 <= k < |s| ==> IsDigit(s[k])
  }

  function DigitChar(d: nat): (c: char)
    requires d < 10
    ensures IsDigit(c)
  {
    ('0' as int + d) as char
  }

  function DigitValue(c: char): (d: nat)
    requires IsDigit(c)
    ensures d < 10
  {
    (c as int - '0' as int) as nat
  }

  lemma DigitValueOfChar(d: nat)
    requires d < 10
    ensures DigitValue(DigitChar(d)) == d
  {
  }

  lemma DigitCharOfValue(c: char)
    requires IsDigit(c)
    ensures DigitChar(DigitValue(c)) == c
  {
  }

  /** A run of digits as `str` writes a magnitude: at least one digit, and a
      leading zero only in `"0"` itself. */
  predicate Canonical(d: string) {
    1 <= |d| && AllDigits(d) && (d[0] == '0' ==> |d| == 1)
  }

  /** The shortest decimal numeral of `n`: at least one digit, no leading zero. */
  function NatToDecimal(n: nat): (r: string)
    ensures Canonical(r)
    ensures r[0] == '0' ==> n == 0
  {
    if n < 10 then [DigitChar(n)]
    else NatToDecimal(n / 10) + [DigitChar(n % 10)]
  }

  /** `str(i)` for an `int`: a minus sign before the magnitude when negative. */
  function IntToDecimal(i: int): (r: string)
    ensures 1 <= |r|
    ensures i < 0 <==> r[0] == '-'
  {
    if i < 0 then "-" + NatToDecimal(-i) else NatToDecimal(i)
  }

  /** The value of a run of digits, most significant first. */
  function ParseDigits(s: string): nat
    requires AllDigits(s)
  {
    if s == [] then 0
    else 10 * ParseDigits(s[..|s| - 1]) + DigitValue(s[|s| - 1])
  }

  /** Exactly the texts `str` gives for an `int`: a canonical run of digits,
      or a minus sign before one that is not `"0"`. */
  predicate IsNumeral(s: string) {
    || Canonical(s)
    || (2 <= |s| && s[0] == '-' && s[1] != '0' && Canonical(s[1..]))
  }

  /** Reads back an optionally signed decimal numeral. */
  function ParseInt(s: string): int
    requires IsNumeral(s)
  {
    if s[0] == '-' then
      var m: int := ParseDigits(s[1..]);
      -m
    else ParseDigits(s)
  }

  lemma {:induction false} ParseNatToDecimal(n: nat)
    ensures ParseDigits(NatToDecimal(n)) == n
  {
    if n < 10 {
      DigitValueOfChar(n);
    } else {
      var p := NatToDecimal(n / 10);
      var r := NatToDecimal(n);
      assert r == p + [DigitChar(n % 10)];
      assert r[..|r| - 1] == p;
      ParseNatToDecimal(n / 10);
      DigitValueOfChar(n % 10);
    }
  }

  lemma TailAfterSign(s: string)
    ensures ("-" + s)[1..] == s
  {
  }

  /** Rendering then parsing gives back the integer, so distinct integers
      render to distinct texts. */
  lemma ParseIntToDecimal(i: int)
    ensures IsNumeral(IntToDecimal(i)) && ParseInt(IntToDecimal(i)) == i
  {
    var r := IntToDecimal(i);
    if i < 0 {
      var m := NatToDecimal(-i);
      TailAfterSign(m);
      assert r[1..] == m && r[1] == m[0] != '0';
      ParseNatToDecimal(-i);
      var p: int := ParseDigits(m);
      assert p == -i;
      assert ParseInt(r) == -p;
    } else {
      assert r[0] != '-' && r == NatToDecimal(i);
      ParseNatToDecimal(i);
      assert ParseDigits(r) == i;
      assert ParseInt(r) == ParseDigits(r);
    }
  }

  /** Digits with a non-zero lead are worth at least one. */
  lemma {:induction false} ParseDigitsPositive(d: string)
    requires 1 <= |d| && AllDigits(d) && d[0] != '0'
    ensures ParseDigits(d) >= 1
  {
    var init := d[..|d| - 1];
    if |d| > 1 {
      assert init[0] == d[0];
      ParseDigitsPositive(init);
    } else {
      assert init == [];
    }
  }

  /** Parsing then rendering gives back a canonical run of digits. */
  lemma {:induction false} NatToDecimalOfParse(d: string)
    requires Canonical(d)
    ensures NatToDecimal(ParseDigits(d)) == d
  {
    var init := d[..|d| - 1];
    var last := d[|d| - 1];
    var n := ParseDigits(d);
    DigitCharOfValue(last);
    if |d| == 1 {
      assert init == [];
      assert NatToDecimal(n) == [DigitChar(DigitValue(last))];
    } else {
      assert init[0] == d[0] != '0';
      ParseDigitsPositive(init);
      NatToDecimalOfParse(init);
      var a := ParseDigits(init);
      assert n == 10 * a + DigitValue(last);
      assert n / 10 == a && n % 10 == DigitValue(last);
      assert NatToDecimal(n) == NatToDecimal(a) + [DigitChar(DigitValue(last))];
      assert d == init + [last];
    }
  }

  /** Parsing then rendering gives back the text: `IsNumeral` holds exactly
      for the texts `IntToDecimal` produces, each for one integer. */
  lemma IntToDecimalOfParse(s: string)
    requires IsNumeral(s)
    ensures IntToDecimal(ParseInt(s)) == s
  {
    if s[0] == '-' {
      var d := s[1..];
      ParseDigitsPositive(d);
      NatToDecimalOfParse(d);
      var m: int := ParseDigits(d);
      assert ParseInt(s) == -m && -m < 0;
      assert IntToDecimal(-m) == "-" + NatToDecimal(m);
      assert s == "-" + d;
    } else {
      NatToDecimalOfParse(s);
    }
  }

  lemma IntToDecimalInjective(i: int, j: int)
    ensures IntToDecimal(i) == IntToDecimal(j) ==> i == j
  {
    ParseIntToDecimal(i);
    ParseIntToDecimal(j);
  }
}

=== FILE: loop.dfy ===
/**
 One pass of the `while True` loop in `recognize_and_communicate`, as a pure
 step from the shared state and one event to the new state and the actions
 taken in order. Everything the loop gets from outside (the microphone read,
 the recognizer's answer, the backend's answer, the socket's behaviour) is
 part of the event.
 */
module Loop {
  import opened Wrappers
  import Text
  import Reply
  import opened Actions
  import opened Speech

  /** What the recognizer made of a frame it was fed. */
  datatype Recognition =
    | Partial                          // `AcceptWaveform` returned false
    | Final(text: Option<string>)      // the `text` field of `rec.Result()`, if present
    | RecognizerRaised(error: string)  // accepting, fetching or decoding the result raised

  /** What `websocket.send` did: returned, having handed the message to the
      transport (no acknowledgement is awaited), or raised. */
  datatype SendResult = Sent | SendRaised(error: string)

  datatype Event =
    | FrameRead(frame: Frame, recognition: Recognition, server: Reply.HttpOutcome, socket: SendResult)
    | ReadRaised(error: string)         // `stream.read` raised
    | SpeechEnded(outcome: SpeechOutcome)

  /** The utterance of a final result: its `text`, `""` when missing, stripped. */
  function Utterance(text: Option<string>): (u: string)
    ensures u == [] <==> Text.AllSpace(text.GetOr(""))
    ensures u == [] || (!Text.IsSpace(u[0]) && !Text.IsSpace(u[|u| - 1]))
    ensures Text.Strip(u) == u
  {
    Text.StripIdempotent(text.GetOr(""));
    Text.Strip(text.GetOr(""))
  }

  /** The body of `if user_input:` for a non-empty utterance `u`: ask the
      backend, publish the pair, hand the reply to `speak`. */
  function Turn(v: Voice, u: string, server: Reply.HttpOutcome, socket: SendResult): (Voice, seq<Action>)
  {
    var reply := Reply.ModelReply(server);
    var spoken := StartSpeaking(v, reply);
    ( spoken.0,
      [ RequestReply(Reply.GenerateRequest(Reply.ModelName, u, false)),
        Send(DisplayMessage(u, reply), socket.Sent?) ]
      + spoken.1 )
  }

  /** One pass of the loop for a frame that was read. */
  function Iteration(v: Voice, frame: Frame, rec: Recognition,
                     server: Reply.HttpOutcome, socket: SendResult): (Voice, seq<Action>)
  {
    if v.isSpeaking then (v, [Sleep(IdleDelay)])
    else
      match rec
      case Partial => (v, [FeedRecognizer(frame), Sleep(IdleDelay)])
      case RecognizerRaised(_) => (v, [FeedRecognizer(frame), Sleep(BackoffDelay)])
      case Final(text) =>
        var u := Utterance(text);
        if u == [] then (v, [FeedRecognizer(frame), Sleep(IdleDelay)])
        else
          var turn := Turn(v, u, server, socket);
          (turn.0, [FeedRecognizer(frame)] + turn.1 + [Sleep(IdleDelay)])
  }

  /** The next thing that happens: a loop pass that finished, or the speech
      thread ending. Every state has a successor for every event, so no
      event is a terminal state of the model, and the protocol's invariant
      is kept. */
  function Step(v: Voice, e: Event): (r: (Voice, seq<Action>))
    ensures Valid(v) ==> Valid(r.0)
    ensures !e.SpeechEnded? ==> |r.1| >= 1 && r.1[|r.1| - 1].Sleep?
  {
    match e
    case FrameRead(frame, rec, server, socket) => Iteration(v, frame, rec, server, socket)
    case ReadRaised(_) => (v, [Sleep(BackoffDelay)])
    case SpeechEnded(o) => ThreadEnds(v, o)
  }

  /** No self-listening: while the flag is raised, the frame just read is
      dropped. The recognizer is not fed, nothing is asked, sent or spoken,
      the state does not change, and the loop only idles. */
  lemma NoSelfListening(v: Voice, e: Event)
    requires v.isSpeaking && e.FrameRead?
    ensures Step(v, e) == (v, [Sleep(IdleDelay)])
  {
  }

  /** An empty utterance is a no-op: a partial result, or a final one whose
      text is missing or all whitespace, feeds the frame and idles, and
      nothing else. A final result with any other text starts a turn. */
  lemma EmptyUtteranceNoOp(v: Voice, e: Event)
    requires !v.isSpeaking && e.FrameRead?
    requires e.recognition.Partial? || e.recognition.Final?
    ensures (e.recognition.Partial? || Text.AllSpace(e.recognition.text.GetOr("")))
      <==> Step(v, e) == (v, [FeedRecognizer(e.frame), Sleep(IdleDelay)])
  {
    if e.recognition.Final? && !Text.AllSpace(e.recognition.text.GetOr("")) {
      assert |Step(v, e).1| == 5;
    }
  }

  /** The order of a turn: for a non-empty utterance `u`, the frame is fed,
      the backend is asked with `u`, the pair of `u` and the reply is sent,
      then exactly that reply is spoken, then the loop idles. The flag is
      raised before the step ends, and the thread plays the reply. */
  lemma TurnOrder(v: Voice, e: Event)
    requires !v.isSpeaking && e.FrameRead? && e.recognition.Final?
    requires !Text.AllSpace(e.recognition.text.GetOr(""))
    ensures var u := Utterance(e.recognition.text);
      var reply := Reply.ModelReply(e.server);
      && u != []
      && Step(v, e).1 == [ FeedRecognizer(e.frame),
                           RequestReply(Reply.GenerateRequest(Reply.ModelName, u, false)),
                           Send(DisplayMessage(u, reply), e.socket.Sent?),
                           Speak(reply),
                           Sleep(IdleDelay) ]
      && Step(v, e).0 == Voice(true, Some(SpeechThread(reply, true)))
  {
    var u := Utterance(e.recognition.text);
    var reply := Reply.ModelReply(e.server);
    var turn := Turn(v, u, e.server, e.socket);
    assert turn.1 == [ RequestReply(Reply.GenerateRequest(Reply.ModelName, u, false)),
                       Send(DisplayMessage(u, reply), e.socket.Sent?),
                       Speak(reply) ];
    assert Step(v, e) == (turn.0, [FeedRecognizer(e.frame)] + turn.1 + [Sleep(IdleDelay)]);
  }

  /** `send_message` swallows its failure: whether `websocket.send` returned or
      raised, the step reaches the same state and takes the same actions,
      `Speak` included, except for whether the send returned. */
  lemma SendFailureSwallowed(v: Voice, frame: Frame, rec: Recognition,
                             server: Reply.HttpOutcome, err: string)
    ensures var ok := Step(v, FrameRead(frame, rec, server, Sent));
      var failed := Step(v, FrameRead(frame, rec, server, SendRaised(err)));
      && ok.0 == failed.0
      && |ok.1| == |failed.1|
      && forall k :: 0 <= k < |ok.1| && ok.1[k] != failed.1[k] ==>
           failed.1[k].Send? && !failed.1[k].sent && ok.1[k] == Send(failed.1[k].message, true)
  {
    var e1 := FrameRead(frame, rec, server, Sent);
    var e2 := FrameRead(frame, rec, server, SendRaised(err));
    if !v.isSpeaking && rec.Final? && Utterance(rec.text) != [] {
      TurnOrder(v, e1);
      TurnOrder(v, e2);
    }
  }

  /** Error backoff: a failed read, or a recognizer failure on a frame that
      was fed, leaves the state as it was, starts no turn, and waits the
      long delay instead of the short one. The loop goes on. */
  lemma ErrorBackoff(v: Voice, e: Event)
    requires e.ReadRaised? || (e.FrameRead? && !v.isSpeaking && e.recognition.RecognizerRaised?)
    ensures Step(v, e).0 == v
    ensures Step(v, e).1 == (if e.ReadRaised? then [] else [FeedRecognizer(e.frame)]) + [Sleep(BackoffDelay)]
  {
  }

  /** `t` sleeps exactly once, as its last action, for `d` seconds. */
  predicate EndsWithOneSleep(t: seq<Action>, d: real) {
    && |t| >= 1
    && t[|t| - 1] == Sleep(d)
    && forall k :: 0 <= k < |t| - 1 ==> !t[k].Sleep?
  }

  /** Each loop pass sleeps exactly once, at its end, and the long delay is
      used exactly when a read or recognition failed. */
  lemma OneSleepPerPass(v: Voice, e: Event)
    requires !e.SpeechEnded?
    ensures EndsWithOneSleep(Step(v, e).1,
      if e.ReadRaised? || (!v.isSpeaking && e.recognition.RecognizerRaised?)
      then BackoffDelay else IdleDelay)
  {
    if e.FrameRead? && !v.isSpeaking && e.recognition.Final? && Utterance(e.recognition.text) != [] {
      TurnOrder(v, e);
    }
  }

  /** Only a normal end of playback lowers the flag. */
  lemma FlagLoweredOnlyByCompletion(v: Voice, e: Event)
    requires v.isSpeaking && !Step(v, e).0.isSpeaking
    ensures e == SpeechEnded(Completed) && ThreadRunning(v)
  {
  }

  /** An engine failure leaves the flag raised. */
  lemma EngineFailureKeepsFlag(v: Voice, err: string)
    requires Valid(v) && ThreadRunning(v)
    ensures Step(v, SpeechEnded(EngineRaised(err))).0.isSpeaking
    ensures !ThreadRunning(Step(v, SpeechEnded(EngineRaised(err))).0)
  {
  }

  /** A single synthesis at a time: a step that speaks starts from a state in
      which no speech thread is running. */
  lemma SingleSynthesis(v: Voice, e: Event)
    requires Valid(v)
    ensures var t := Step(v, e).1;
      forall k :: 0 <= k < |t| && t[k].Speak? ==> !ThreadRunning(v) && !v.isSpeaking
  {
  }
}

=== FILE: reply.dfy ===
/**
 The reply service client, `get_model_reply`: one HTTP POST to the text
 generation backend whose every outcome, failures included, is turned into
 reply text. The transport is not modelled; what it produced is the input.
 */
module Reply {
  import opened Wrappers
  import Decimal

  /** The backend model the request names. */
  const ModelName := "qwen2.5"

  /** The JSON request body: model, prompt, and streaming switched off. */
  datatype GenerateRequest = GenerateRequest(model: string, prompt: string, stream: bool)

  /** The Python type a decoded JSON document has when it is not an object. */
  datatype JsonKind = JList | JStr | JInt | JFloat | JBool | JNull

  /** What `response.json()` makes of a 200 response's body. */
  datatype Body =
    | Undecodable(decodeError: string)          // decoding raised; its message
    | NonObject(kind: JsonKind)                 // valid JSON, but not an object
    | Object(fields: map<string, string>)       // a JSON object

  /** What `requests.post` did: answered with a status and a body, or raised. */
  datatype HttpOutcome =
    | Response(status: int, body: Body)
    | Raised(message: string)

  const NoReplyFallback := "抱歉，未能生成回复。"
  const StatusPrefix := "请求失败，状态码: "
  const ErrorPrefix := "请求发生错误: "

  function TypeName(k: JsonKind): string {
    match k
    case JList => "list"
    case JStr => "str"
    case JInt => "int"
    case JFloat => "float"
    case JBool => "bool"
    case JNull => "NoneType"
  }

  /** The message of the `AttributeError` that `.get` raises on a non-dict. */
  function AttributeErrorMessage(k: JsonKind): string {
    "'" + TypeName(k) + "' object has no attribute 'get'"
  }

  /** The detail after `ErrorPrefix`, when `text` is an error fallback. */
  function ErrorDetail(text: string): Option<string> {
    if |ErrorPrefix| <= |text| && text[..|ErrorPrefix|] == ErrorPrefix
    then Some(text[|ErrorPrefix|..])
    else None
  }

  /** The status code after `StatusPrefix`, when `text` is a status fallback. */
  function StatusIn(text: string): Option<int> {
    if |StatusPrefix| <= |text| && text[..|StatusPrefix|] == StatusPrefix
       && Decimal.IsNumeral(text[|StatusPrefix|..])
    then Some(Decimal.ParseInt(text[|StatusPrefix|..]))
    else None
  }

  /** Reading a 200 response: the `"response"` field of the decoded object,
      the apology when it is absent, and an error text when decoding or the
      lookup raises. */
  function BodyReply(b: Body): (r: string)
    ensures b.Undecodable? ==> ErrorDetail(r) == Some(b.decodeError)
    ensures b.NonObject? ==> ErrorDetail(r) == Some(AttributeErrorMessage(b.kind))
    ensures b.Object? && "response" in b.fields ==> r == b.fields["response"]
    ensures b.Object? && "response" !in b.fields ==> r == NoReplyFallback
  {
    match b
    case Undecodable(e) => ErrorPrefix + e
    case NonObject(k) => ErrorPrefix + AttributeErrorMessage(k)
    case Object(fields) => if "response" in fields then fields["response"] else NoReplyFallback
  }

  /** `get_model_reply`: total, never raises. A non-200 status yields a text
      from which the status code reads back; a raised request yields a text
      carrying the exception's message; both are non-empty. */
  function ModelReply(o: HttpOutcome): (r: string)
    ensures o.Response? && o.status != 200 ==> StatusIn(r) == Some(o.status)
    ensures o.Raised? ==> ErrorDetail(r) == Some(o.message)
    ensures o.Response? && o.status == 200 ==> r == BodyReply(o.body)
    ensures (o.Raised? || o.status != 200) ==> r != []
  {
    match o
    case Raised(m) => ErrorPrefix + m
    case Response(c, b) =>
      if c == 200 then BodyReply(b)
      else
        var text := StatusPrefix + Decimal.IntToDecimal(c);
        assert text[..|StatusPrefix|] == StatusPrefix;
        assert text[|StatusPrefix|..] == Decimal.IntToDecimal(c);
        Decimal.ParseIntToDecimal(c);
        text
  }

  /** `StatusIn` reads only the exact texts the status fallback produces: a
      text that reads back as code `c` is the fallback for `c`, character for
      character. With `ModelReply`'s ensures this pins a non-200 reply. */
  lemma StatusInPinsText(text: string, c: int)
    requires StatusIn(text) == Some(c)
    ensures text == StatusPrefix + Decimal.IntToDecimal(c)
  {
    var d := text[|StatusPrefix|..];
    Decimal.IntToDecimalOfParse(d);
    assert text == text[..|StatusPrefix|] + d;
  }

  /** Only a 200 response's body is ever read: any other status gives the
      same text whatever the body. */
  lemma BodyIgnoredUnlessOk(c: int, b1: Body, b2: Body)
    requires c != 200
    ensures ModelReply(Response(c, b1)) == ModelReply(Response(c, b2))
  {
  }

  /** The failure texts are deterministic and tell the failures apart: two
      non-200 outcomes give the same text only for the same status, and a
      status text is never an exception text (of a raised request, or of a
      200 answer whose body could not be read) nor the apology. */
  lemma FailureTextsDistinct(o1: HttpOutcome, o2: HttpOutcome)
    requires o1.Response? && o1.status != 200
    ensures o2.Response? && o2.status != 200 && ModelReply(o1) == ModelReply(o2)
      ==> o1.status == o2.status
    ensures o2.Raised? ==> ModelReply(o1) != ModelReply(o2)
    ensures ErrorDetail(ModelReply(o1)) == None
    ensures ModelReply(o1) != NoReplyFallback
  {
    var r1 := ModelReply(o1);
    var r2 := ModelReply(o2);
    assert r1[..|StatusPrefix|] == StatusPrefix;
    if o2.Raised? {
      assert r2[..|ErrorPrefix|] == ErrorPrefix;
      assert r1[2] == StatusPrefix[2] != ErrorPrefix[2] == r2[2];
    } else if o2.status != 200 && r1 == r2 {
      assert StatusIn(r1) == Some(o1.status) && StatusIn(r2) == Some(o2.status);
    }
    assert r1[2] == StatusPrefix[2] != ErrorPrefix[2];
    assert r1[0] == StatusPrefix[0] != NoReplyFallback[0];
  }

  /** Only the failure texts are guaranteed non-empty: a 200 answer whose
      `"response"` is empty yields an empty reply, which the controller
      still publishes and speaks. */
  lemma OkReplyMayBeEmpty()
    ensures ModelReply(Response(200, Object(map["response" := ""]))) == ""
  {
  }
}

=== FILE: runs.dfy ===
/**
 Whole runs of the controller: the loop's passes and the speech thread's
 ends, interleaved in any order, and what the concatenated action trace
 shows about them.
 */
module Runs {
  import Text
  import Reply
  import opened Actions
  import opened Speech
  import opened Loop

  /** The state reached and the actions taken by handling `es` in order. A
      run from a valid state only passes through valid states. */
  function Run(v: Voice, es: seq<Event>): (r: (Voice, seq<Action>))
    ensures Valid(v) ==> Valid(r.0)
  {
    if es == [] then (v, [])
    else
      var before := Run(v, es[..|es| - 1]);
      var last := Step(before.0, es[|es| - 1]);
      (last.0, before.1 + last.1)
  }

  /** Handling one more event extends the run by one step. */
  lemma RunAppend(v: Voice, es: seq<Event>, e: Event)
    ensures var before := Run(v, es);
      var last := Step(before.0, e);
      Run(v, es + [e]) == (last.0, before.1 + last.1)
  {
    assert (es + [e])[..|es|] == es;
  }

  /** Whether, after the actions `t`, some `Speak` is still waiting for its
      playback to end normally; `m` says whether one was waiting before `t`. */
  function Muted(m: bool, t: seq<Action>): bool {
    if t == [] then m
    else
      match t[|t| - 1]
      case Speak(_) => true
      case SpeechEnd(Completed) => false
      case _ => Muted(m, t[..|t| - 1])
  }

  lemma {:induction false} MutedConcat(m: bool, t1: seq<Action>, t2: seq<Action>)
    ensures Muted(m, t1 + t2) == Muted(Muted(m, t1), t2)
  {
    if t2 == [] {
      assert t1 + t2 == t1;
    } else {
      var t2' := t2[..|t2| - 1];
      assert (t1 + t2)[..|t1 + t2| - 1] == t1 + t2';
      assert (t1 + t2)[|t1 + t2| - 1] == t2[|t2| - 1];
      MutedConcat(m, t1, t2');
    }
  }

  /** No action that starts or ends a playback. */
  predicate Unvoiced(t: seq<Action>) {
    forall k :: 0 <= k < |t| ==> !t[k].Speak? && !t[k].SpeechEnd?
  }

  lemma {:induction false} UnvoicedKeepsMuted(m: bool, t: seq<Action>)
    requires Unvoiced(t)
    ensures Muted(m, t) == m
  {
    if t != [] {
      assert !t[|t| - 1].Speak? && !t[|t| - 1].SpeechEnd?;
      UnvoicedKeepsMuted(m, t[..|t| - 1]);
    }
  }

  /** A pass that starts no turn neither speaks nor ends a playback, and
      feeds the recognizer, if at all, first and only when not speaking. */
  lemma QuietStep(v: Voice, e: Event)
    requires !e.SpeechEnded?
    requires !(e.FrameRead? && !v.isSpeaking && e.recognition.Final? && Utterance(e.recognition.text) != [])
    ensures Step(v, e).0 == v
    ensures var t := Step(v, e).1;
      forall k :: 0 <= k < |t| ==> (t[k].FeedRecognizer? && k == 0 && !v.isSpeaking) || t[k].Sleep?
  {
  }

  /** The flag after a step is exactly what the step's actions say: raised
      by a `Speak`, lowered by a normal end of playback, otherwise kept. */
  lemma StepFlagFollowsTrace(v: Voice, e: Event)
    ensures Step(v, e).0.isSpeaking == Muted(v.isSpeaking, Step(v, e).1)
  {
    var t := Step(v, e).1;
    if e.SpeechEnded? {
      if t != [] {
        assert t == [SpeechEnd(e.outcome)];
        assert t[..0] == [];
      }
    } else if e.FrameRead? && !v.isSpeaking && e.recognition.Final? && Utterance(e.recognition.text) != [] {
      TurnOrder(v, e);
      var p := t[..4];
      assert p[3].Speak?;
      assert Muted(v.isSpeaking, p);
      assert t[4].Sleep?;
    } else {
      QuietStep(v, e);
      UnvoicedKeepsMuted(v.isSpeaking, t);
    }
  }

  /** The five actions of a turn feed and speak before any playback. */
  lemma TurnTraceActsUnmuted(t: seq<Action>, j: int)
    requires |t| == 5 && t[0].FeedRecognizer? && t[1].RequestReply? && t[2].Send?
    requires t[3].Speak? && t[4].Sleep?
    requires 0 <= j < 5 && (t[j].FeedRecognizer? || t[j].Speak?)
    ensures !Muted(false, t[..j])
  {
    assert j == 0 || j == 3;
    assert Unvoiced(t[..j]);
    UnvoicedKeepsMuted(false, t[..j]);
  }

  /** In a step, the recognizer is fed and a reply is spoken only at points
      where no earlier `Speak` is waiting for its playback to end. */
  lemma StepActsOnlyUnmuted(v: Voice, e: Event, j: int)
    requires 0 <= j < |Step(v, e).1|
    requires Step(v, e).1[j].FeedRecognizer? || Step(v, e).1[j].Speak?
    ensures !Muted(v.isSpeaking, Step(v, e).1[..j])
  {
    var t := Step(v, e).1;
    if e.SpeechEnded? {
      // A thread's end yields at most a `SpeechEnd`, never a feed or a `Speak`.
      assert false;
    } else if e.FrameRead? && !v.isSpeaking && e.recognition.Final? && Utterance(e.recognition.text) != [] {
      TurnOrder(v, e);
      TurnTraceActsUnmuted(t, j);
    } else {
      QuietStep(v, e);
      assert j == 0 && t[..j] == [];
    }
  }

  /** Over a whole run the flag is what the trace says. */
  lemma {:induction false} RunFlagFollowsTrace(v: Voice, es: seq<Event>)
    ensures Run(v, es).0.isSpeaking == Muted(v.isSpeaking, Run(v, es).1)
  {
    if es != [] {
      var before := Run(v, es[..|es| - 1]);
      RunFlagFollowsTrace(v, es[..|es| - 1]);
      StepFlagFollowsTrace(before.0, es[|es| - 1]);
      MutedConcat(v.isSpeaking, before.1, Step(before.0, es[|es| - 1]).1);
    }
  }

  /** No self-listening over a run: every `FeedRecognizer`, and every
      `Speak`, happens when no earlier `Speak` is still playing. */
  lemma {:induction false} RunActsOnlyUnmuted(v: Voice, es: seq<Event>)
    ensures var t := Run(v, es).1;
      forall j :: 0 <= j < |t| && (t[j].FeedRecognizer? || t[j].Speak?) ==> !Muted(v.isSpeaking, t[..j])
  {
    if es != [] {
      var before := Run(v, es[..|es| - 1]);
      var last := es[|es| - 1];
      var t1 := before.1;
      var t2 := Step(before.0, last).1;
      var t := Run(v, es).1;
      assert t == t1 + t2;
      RunActsOnlyUnmuted(v, es[..|es| - 1]);
      RunFlagFollowsTrace(v, es[..|es| - 1]);
      forall j | 0 <= j < |t| && (t[j].FeedRecognizer? || t[j].Speak?)
        ensures !Muted(v.isSpeaking, t[..j])
      {
        if j < |t1| {
          assert t[..j] == t1[..j];
        } else {
          var j2 := j - |t1|;
          assert t[j] == t2[j2];
          assert t[..j] == t1 + t2[..j2];
          StepActsOnlyUnmuted(before.0, last, j2);
          MutedConcat(v.isSpeaking, t1, t2[..j2]);
        }
      }
    }
  }

  /** A `Speak` not followed by a normal end of playback keeps the trace muted. */
  lemma {:induction false} SpeakMutesUntilCompleted(m: bool, t: seq<Action>, i: int, j: int)
    requires 0 <= i < j <= |t| && t[i].Speak?
    requires forall k :: i < k < j ==> t[k] != SpeechEnd(Completed)
    ensures Muted(m, t[..j])
  {
    var p := t[..j];
    assert p[|p| - 1] == t[j - 1];
    if j - 1 > i && !t[j - 1].Speak? {
      assert p[..|p| - 1] == t[..j - 1];
      SpeakMutesUntilCompleted(m, t, i, j - 1);
    }
  }

  /** At most one speech per playback: in any run, between a `Speak` and any
      later `FeedRecognizer` or `Speak` the playback of the first ended
      normally. */
  lemma SpeakWindowsRespected(v: Voice, es: seq<Event>)
    ensures var t := Run(v, es).1;
      forall i, j :: 0 <= i < j < |t| && t[i].Speak? && (t[j].FeedRecognizer? || t[j].Speak?)
        ==> exists k :: i < k < j && t[k] == SpeechEnd(Completed)
  {
    var t := Run(v, es).1;
    RunActsOnlyUnmuted(v, es);
    forall i, j | 0 <= i < j < |t| && t[i].Speak? && (t[j].FeedRecognizer? || t[j].Speak?)
      ensures exists k :: i < k < j && t[k] == SpeechEnd(Completed)
    {
      if forall k :: i < k < j ==> t[k] != SpeechEnd(Completed) {
        SpeakMutesUntilCompleted(v.isSpeaking, t, i, j);
      }
    }
  }

  /** Each request for a reply names a non-empty stripped utterance and is
      followed by the message pairing that utterance with a reply. */
  predicate RequestsPublished(t: seq<Action>) {
    forall j :: 0 <= j < |t| && t[j].RequestReply? ==>
      && t[j].request.model == Reply.ModelName && !t[j].request.stream
      && t[j].request.prompt != [] && Text.Strip(t[j].request.prompt) == t[j].request.prompt
      && j + 1 < |t| && t[j + 1].Send? && t[j + 1].message.userInput == t[j].request.prompt
  }

  /** Each message is followed by speaking exactly its reply. */
  predicate SendsSpoken(t: seq<Action>) {
    forall j :: 0 <= j < |t| && t[j].Send? ==>
      j + 1 < |t| && t[j + 1] == Speak(t[j].message.replyText)
  }

  /** Each `Speak` comes right after a request and the message carrying the
      reply it speaks, and they right after the frame that ended the
      utterance. */
  predicate SpeaksPreceded(t: seq<Action>) {
    forall j :: 0 <= j < |t| && t[j].Speak? ==>
      && 3 <= j && t[j - 3].FeedRecognizer? && t[j - 2].RequestReply?
      && t[j - 1].Send? && t[j - 1].message.replyText == t[j].text
  }

  /** The order of turns in an action trace. */
  predicate TurnsOrdered(t: seq<Action>) {
    RequestsPublished(t) && SendsSpoken(t) && SpeaksPreceded(t)
  }

  /** The five actions of a turn are in turn order. */
  lemma TurnTraceOrdered(f: Frame, u: string, reply: string, sent: bool)
    requires u != [] && Text.Strip(u) == u
    ensures TurnsOrdered([ FeedRecognizer(f),
                           RequestReply(Reply.GenerateRequest(Reply.ModelName, u, false)),
                           Send(DisplayMessage(u, reply), sent),
                           Speak(reply),
                           Sleep(IdleDelay) ])
  {
    var t := [ FeedRecognizer(f),
               RequestReply(Reply.GenerateRequest(Reply.ModelName, u, false)),
               Send(DisplayMessage(u, reply), sent),
               Speak(reply),
               Sleep(IdleDelay) ];
    forall j | 0 <= j < |t| && t[j].RequestReply?
      ensures j == 1
    {
    }
    forall j | 0 <= j < |t| && t[j].Send?
      ensures j == 2
    {
    }
    forall j | 0 <= j < |t| && t[j].Speak?
      ensures j == 3
    {
    }
  }

  /** A trace with no request, message or speech is trivially in turn order. */
  lemma TurnlessTraceOrdered(t: seq<Action>)
    requires forall k :: 0 <= k < |t| ==> !t[k].RequestReply? && !t[k].Send? && !t[k].Speak?
    ensures TurnsOrdered(t)
  {
  }

  lemma StepTurnsOrdered(v: Voice, e: Event)
    ensures TurnsOrdered(Step(v, e).1)
  {
    var t := Step(v, e).1;
    if e.SpeechEnded? {
      assert forall k :: 0 <= k < |t| ==> t[k].SpeechEnd?;
      TurnlessTraceOrdered(t);
    } else if e.FrameRead? && !v.isSpeaking && e.recognition.Final? && Utterance(e.recognition.text) != [] {
      TurnOrder(v, e);
      var u := Utterance(e.recognition.text);
      TurnTraceOrdered(e.frame, u, Reply.ModelReply(e.server), e.socket.Sent?);
    } else {
      QuietStep(v, e);
      TurnlessTraceOrdered(t);
    }
  }

  /** A trace that does not stop between a request and its message, or
      between a message and its speech. */
  predicate EndsOutsideTurn(t: seq<Action>) {
    t == [] || (!t[|t| - 1].RequestReply? && !t[|t| - 1].Send?)
  }

  lemma ConcatRequestsPublished(t1: seq<Action>, t2: seq<Action>)
    requires RequestsPublished(t1) && RequestsPublished(t2) && EndsOutsideTurn(t1)
    ensures RequestsPublished(t1 + t2)
  {
    var t := t1 + t2;
    forall j | 0 <= j < |t| && t[j].RequestReply?
      ensures j + 1 < |t| && t[j + 1].Send? && t[j + 1].message.userInput == t[j].request.prompt
    {
      if j >= |t1| {
        assert t[j] == t2[j - |t1|];
      }
    }
  }

  lemma ConcatSendsSpoken(t1: seq<Action>, t2: seq<Action>)
    requires SendsSpoken(t1) && SendsSpoken(t2) && EndsOutsideTurn(t1)
    ensures SendsSpoken(t1 + t2)
  {
    var t := t1 + t2;
    forall j | 0 <= j < |t| && t[j].Send?
      ensures j + 1 < |t| && t[j + 1] == Speak(t[j].message.replyText)
    {
      if j >= |t1| {
        assert t[j] == t2[j - |t1|];
      }
    }
  }

  lemma ConcatSpeaksPreceded(t1: seq<Action>, t2: seq<Action>)
    requires SpeaksPreceded(t1) && SpeaksPreceded(t2)
    ensures SpeaksPreceded(t1 + t2)
  {
    var t := t1 + t2;
    forall j | 0 <= j < |t| && t[j].Speak?
      ensures 3 <= j && t[j - 3].FeedRecognizer? && t[j - 2].RequestReply?
          && t[j - 1].Send? && t[j - 1].message.replyText == t[j].text
    {
      if j >= |t1| {
        var j2 := j - |t1|;
        assert t[j] == t2[j2];
        assert t2[j2 - 1] == t[j - 1] && t2[j2 - 2] == t[j - 2] && t2[j2 - 3] == t[j - 3];
      }
    }
  }

  /** Every run's trace keeps the order of turns. */
  lemma {:induction false} RunTurnsOrdered(v: Voice, es: seq<Event>)
    ensures TurnsOrdered(Run(v, es).1)
  {
    if es != [] {
      var before := Run(v, es[..|es| - 1]);
      var step := Step(before.0, es[|es| - 1]);
      RunTurnsOrdered(v, es[..|es| - 1]);
      StepTurnsOrdered(before.0, es[|es| - 1]);
      RunEndsOutsideTurn(v, es[..|es| - 1]);
      ConcatRequestsPublished(before.1, step.1);
      ConcatSendsSpoken(before.1, step.1);
      ConcatSpeaksPreceded(before.1, step.1);
    }
  }

  /** A run never stops in the middle of a turn. */
  lemma {:induction false} RunEndsOutsideTurn(v: Voice, es: seq<Event>)
    ensures EndsOutsideTurn(Run(v, es).1)
  {
    if es != [] {
      var before := Run(v, es[..|es| - 1]);
      var step := Step(before.0, es[|es| - 1]);
      RunEndsOutsideTurn(v, es[..|es| - 1]);
      if step.1 != [] {
        assert (before.1 + step.1)[|before.1 + step.1| - 1] == step.1[|step.1| - 1];
      }
    }
  }

  /** An engine failure deafens the controller for good: with the flag
      raised and no thread left to lower it, every later pass only sleeps
      and the state never changes. */
  lemma {:induction false} DeafAfterEngineFailure(v: Voice, es: seq<Event>)
    requires v.isSpeaking && !ThreadRunning(v)
    ensures Run(v, es).0 == v
    ensures forall k :: 0 <= k < |Run(v, es).1| ==> Run(v, es).1[k].Sleep?
  {
    if es != [] {
      var before := Run(v, es[..|es| - 1]);
      DeafAfterEngineFailure(v, es[..|es| - 1]);
      var step := Step(before.0, es[|es| - 1]);
      assert forall k :: 0 <= k < |step.1| ==> step.1[k].Sleep?;
      var t := before.1 + step.1;
      forall k | 0 <= k < |t|
        ensures t[k].Sleep?
      {
        if k >= |before.1| { assert t[k] == step.1[k - |before.1|]; }
      }
    }
  }

  /** The consequence of no guaranteed reset: once a playback fails, no
      frame is ever fed to the recognizer again, whatever happens next. */
  lemma EngineFailureDeafensLoop(v: Voice, err: string, es: seq<Event>)
    requires Valid(v) && ThreadRunning(v)
    ensures var after := Step(v, SpeechEnded(EngineRaised(err))).0;
      forall k :: 0 <= k < |Run(after, es).1| ==> !Run(after, es).1[k].FeedRecognizer?
  {
    var after := Step(v, SpeechEnded(EngineRaised(err))).0;
    EngineFailureKeepsFlag(v, err);
    DeafAfterEngineFailure(after, es);
  }
}

=== FILE: scenarios.dfy ===
/**
 Two end-to-end conversations from a freshly started controller: one where
 the backend answers, and one where it fails with HTTP 500.
 */
module Scenarios {
  import opened Wrappers
  import Reply
  import opened Actions
  import opened Speech
  import opened Loop
  import opened Runs

  const Greeting := "你好"
  const Answer := "你好！有什么可以帮您"

  /** The frame that ends the utterance 你好, answered by the backend. */
  function GreetingHeard(f: Frame): Event {
    FrameRead(f, Final(Some(Greeting)),
              Reply.Response(200, Reply.Object(map["response" := Answer])), Sent)
  }

  lemma GreetingUtterance()
    ensures Utterance(Some(Greeting)) == Greeting
  {
  }

  /** The user says 你好, the backend answers, the display client gets the
      pair, the answer is spoken once, and the flag goes from idle to
      speaking and back. */
  lemma GreetingIsAnswered(f: Frame)
    ensures Run(Initial, [GreetingHeard(f)]).0.isSpeaking
    ensures Run(Initial, [GreetingHeard(f), SpeechEnded(Completed)]).1
      == [ FeedRecognizer(f),
           RequestReply(Reply.GenerateRequest("qwen2.5", Greeting, false)),
           Send(DisplayMessage(Greeting, Answer), true),
           Speak(Answer),
           Sleep(0.1),
           SpeechEnd(Completed) ]
    ensures !Run(Initial, [GreetingHeard(f), SpeechEnded(Completed)]).0.isSpeaking
  {
    var e := GreetingHeard(f);
    GreetingUtterance();
    assert Reply.ModelReply(e.server) == Answer;
    TurnOrder(Initial, e);
    var first := Step(Initial, e);
    var second := Step(first.0, SpeechEnded(Completed));
    assert second == (Voice(false, Some(SpeechThread(Answer, false))), [SpeechEnd(Completed)]);
    assert [e] == [] + [e];
    RunAppend(Initial, [], e);
    assert [e, SpeechEnded(Completed)] == [e] + [SpeechEnded(Completed)];
    RunAppend(Initial, [e], SpeechEnded(Completed));
  }

  /** The backend answers HTTP 500: the turn still completes, and the text
      published and spoken is the status fallback naming 500. */
  lemma ServerErrorIsSpoken(f: Frame, body: Reply.Body)
    ensures var e := FrameRead(f, Final(Some(Greeting)), Reply.Response(500, body), Sent);
      Step(Initial, e).1 == [ FeedRecognizer(f),
                              RequestReply(Reply.GenerateRequest("qwen2.5", Greeting, false)),
                              Send(DisplayMessage(Greeting, "请求失败，状态码: 500"), true),
                              Speak("请求失败，状态码: 500"),
                              Sleep(0.1) ]
  {
    var e := FrameRead(f, Final(Some(Greeting)), Reply.Response(500, body), Sent);
    GreetingUtterance();
    assert Reply.ModelReply(Reply.Response(500, body)) == "请求失败，状态码: 500";
    TurnOrder(Initial, e);
  }
}

=== FILE: speech.dfy ===
/**
 The `speak` flag protocol. The controller's shared state is the two globals
 `is_speaking` and `speech_thread`. `speak` raises the flag itself, before it
 starts the thread; the thread lowers it only after playback returns
 normally. The thread runs concurrently in the program; here its end is a
 separate, later event.
 */
module Speech {
  import opened Wrappers
  import opened Actions

  /** The last speech thread started: the text it plays and whether it is
      still running. */
  datatype SpeechThread = SpeechThread(text: string, alive: bool)

  datatype Voice = Voice(isSpeaking: bool, speechThread: Option<SpeechThread>)

  /** Both globals as the module sets them at import time. */
  const Initial := Voice(false, None)

  predicate ThreadRunning(v: Voice) {
    v.speechThread.Some? && v.speechThread.value.alive
  }

  /** The flag is raised only by `speak`, which also records a thread, and a
      running thread always finds the flag raised. */
  predicate Valid(v: Voice) {
    && (v.isSpeaking ==> v.speechThread.Some?)
    && (ThreadRunning(v) ==> v.isSpeaking)
  }

  /** `speak(text)`: the flag is already raised when the call returns, and
      the one running thread is the one playing `text`. */
  function StartSpeaking(v: Voice, text: string): (r: (Voice, seq<Action>))
    ensures r.0.isSpeaking && Valid(r.0)
    ensures ThreadRunning(r.0) && r.0.speechThread.value.text == text
    ensures r.1 == [Speak(text)]
  {
    (Voice(true, Some(SpeechThread(text, true))), [Speak(text)])
  }

  /** The end of `run_speech`. A normal return lowers the flag; an engine
      failure kills the thread with the flag still raised, since nothing
      guards the assignment. With no thread running there is nothing to end. */
  function ThreadEnds(v: Voice, o: SpeechOutcome): (r: (Voice, seq<Action>))
    ensures Valid(v) ==> Valid(r.0)
    ensures !ThreadRunning(r.0)
    ensures r.0.isSpeaking != v.isSpeaking ==> o.Completed? && ThreadRunning(v) && !r.0.isSpeaking
    ensures ThreadRunning(v) && o.Completed? ==> !r.0.isSpeaking
    ensures !ThreadRunning(v) ==> r == (v, [])
  {
    match v.speechThread
    case Some(t) =>
      if !t.alive then (v, [])
      else
        var ended := Some(SpeechThread(t.text, false));
        if o.Completed? then (Voice(false, ended), [SpeechEnd(o)])
        else (Voice(v.isSpeaking, ended), [SpeechEnd(o)])
    case None => (v, [])
  }
}

=== FILE: text.dfy ===
/**
 Python's `str.strip()` with no arguments, as applied to the recognizer's
 `text` field before the controller decides whether an utterance was heard.
 */
module Text {

  /** The characters for which Python's `str.isspace()` holds: the ASCII
      controls TAB..CR and FS..US, SPACE, NEL, NO-BREAK SPACE and the Unicode
      space and separator characters, among them the ideographic space. */
  predicate IsSpace(c: char) {
    || ('\t' <= c <= '\r')
    || ('\U{1C}' <= c <= '\U{1F}')
    || c == ' '
    || c == '\U{85}'
    || c == '\U{A0}'
    || c == '\U{1680}'
    || ('\U{2000}' <= c <= '\U{200A}')
    || c == '\U{2028}'
    || c == '\U{2029}'
    || c == '\U{202F}'
    || c == '\U{205F}'
    || c == '\U{3000}'
  }

  predicate AllSpace(s: string) {
    forall k :: 0 <= k < |s| ==> IsSpace(s[k])
  }

  /** How many whitespace characters `s` starts with. */
  function LeadingSpace(s: string): (n: nat)
    ensures n <= |s|
    ensures n < |s| ==> !IsSpace(s[n])
    ensures forall k :: 0 <= k < n ==> IsSpace(s[k])
  {
    if s == [] || !IsSpace(s[0]) then 0
    else
      var n := LeadingSpace(s[1..]);
      assert forall k :: 1 <= k < 1 + n ==> s[k] == s[1..][k - 1];
      1 + n
  }

  /** How many whitespace characters `s` ends with. */
  function TrailingSpace(s: string): (n: nat)
    ensures n <= |s|
    ensures n < |s| ==> !IsSpace(s[|s| - 1 - n])
    ensures forall k :: |s| - n <= k < |s| ==> IsSpace(s[k])
  {
    if s == [] || !IsSpace(s[|s| - 1]) then 0
    else
      var n := TrailingSpace(s[..|s| - 1]);
      assert forall k :: |s| - 1 - n <= k < |s| - 1 ==> s[k] == s[..|s| - 1][k];
      1 + n
  }

  /** `s.strip()`: the characters between the leading and the trailing
      whitespace. No whitespace is left at either end, and nothing is left
      at all exactly when `s` was all whitespace. */
  function Strip(s: string): (r: string)
    ensures |r| <= |s|
    ensures r == [] || (!IsSpace(r[0]) && !IsSpace(r[|r| - 1]))
    ensures r == [] <==> AllSpace(s)
  {
    var i := LeadingSpace(s);
    if i == |s| then []
    else
      var j := |s| - TrailingSpace(s);
      assert i < j;
      s[i..j]
  }

  /** `r` is the slice of `s` starting at `i`, and everything of `s` outside
      that slice is whitespace. */
  predicate SliceWithin(s: string, r: string, i: int) {
    && 0 <= i <= |s| - |r|
    && r == s[i..i + |r|]
    && AllSpace(s[..i])
    && AllSpace(s[i + |r|..])
  }

  /** What `strip` cuts away is whitespace on either side of one slice. */
  lemma StripIsSlice(s: string)
    ensures exists i :: SliceWithin(s, Strip(s), i)
  {
    var r := Strip(s);
    var i := LeadingSpace(s);
    if i == |s| {
      assert SliceWithin(s, r, |s|);
    } else {
      var j := |s| - TrailingSpace(s);
      assert SliceWithin(s, r, i);
    }
  }

  /** Stripping twice changes nothing further. */
  lemma StripIdempotent(s: string)
    ensures Strip(Strip(s)) == Strip(s)
  {
    var r := Strip(s);
    if r != [] {
      assert LeadingSpace(r) == 0;
      assert TrailingSpace(r) == 0;
    }
  }
}

=== FILE: wrappers.dfy ===
/** The optional value used wherever the program looks a key up with a default. */
module Wrappers {

  datatype Option<+T> = None | Some(value: T) {

    /** The carried value, or `default` when there is none (`dict.get(key, default)`). */
    function GetOr(default: T): T {
      match this
      case Some(v) => v
      case None => default
    }
  }
}
